=== FILE: README.md ===
# A verified model of `parser1.py`

`parser1.py` is a recursive-descent parser for arithmetic expressions. The
expressions use decimal numbers, a leading `-` on a number, brackets, and the
operators `+ - * /`. `*` and `/` bind tighter than `+` and `-`, and operators
of one level group to the left.

Every grammar rule is a pure function from a string to a pair. The pair is
either "no match" together with the untouched input, or a result together
with the unconsumed tail. The rules build on each other in layers:

- `keyword` and `digit` work on characters.
- `first_of` is ordered choice.
- `simple_number` → `fractional_number` → `number` read numbers.
- `bracket_expr`, `mul_operand`, `mul_expr`, `add_expr` and `expr` build the
  tree. They are mutually recursive through the bracket rule.

The Dafny model mirrors these layers:

- `Results` holds the rule outcome `Parsed(result, rest)` and the suffix
  predicates. `Honest` is the per-call contract: failure returns the input,
  success leaves a strictly shorter tail.
- `Primitives` holds `Keyword`, `FirstOf` and `Digit`.
- `Numbers` holds the numeric rules. It also gives independent reference
  definitions: `DigitRun` is the length of the leading digit run, and
  `DecimalValue` is the base-10 value of a digit string.
- `Expressions` holds the tree type `Node` and the mutually recursive rules.
  Termination uses the measure `decreases |s|, rank`. The predicates
  `IsFactor`, `IsTerm` and `IsSum` describe the three grammar levels.
- `Printing` prints a tree back in the grammar's notation. It proves that the
  expression rule reads the printed text back as the same tree.
- `Examples` gives worked inputs that follow from the general lemmas.

The two `while True` loops in `mul_expr` and `add_expr` are the
tail-recursive `MulLoop` and `AddLoop`. Their parameter `left` is the tree
built so far. `first_of` is written out inside `MulOperand` and `Expr`, with
the same alternatives `mul_operand` and `expr` pass to it. The generic `FirstOf` over a sequence of parsers is
also modelled, and lemmas show that the two agree.

Numbers are exact decimals, `Decimal(digits, scale)`, meaning
`digits / 10^scale`. The value `n + f / 10^k` from `fractional_number` is
`Decimal(n * 10^k + f, k)`, with `n * 10^k` written `Shift(n, k)`.

## How the code reads numbers with a fraction

After the whole part, `fractional_number` matches `.` with `keyword`, and
`keyword` already strips the dot. Line 50 then drops one more character
(`s[1:]`) before reading the fraction digits, so the first character after
the dot is always lost. The model follows the code:

- `1.5` reads as 1, with nothing left over.
- `1.25` and `1.05` both read as 1.5.
- `1.x05` reads as 1.05.
- `1.` reads as 1, and the dot is consumed.
- `7.ab` reads as 7, with `b` left over.

The comment `# Skip '.'` on line 50 suggests the intent was to skip only the
dot, which `keyword` on line 46 has already consumed. Even so, the model
reproduces what the code does, not the intent. The lemmas
`Numbers.FractionalSkipsCharAfterDot`,
`Numbers.FractionalScalesByDigitCount` and
`Numbers.FractionalKeepsLeadingZeros` pin this behaviour down.

## Model

| member | source | states |
|---|---|---|
| Primitives.Keyword | parser1.py:7-11 | On failure the input comes back unchanged. On success the keyword is one of those given, and exactly its length is removed from the input. |
| Primitives.KeywordFrom | parser1.py:8-11 | The loop over the keywords from any position: on failure the input is unchanged, and on success a listed keyword of exactly the removed length was matched. |
| Primitives.KeywordFirstMatch | parser1.py:7-11 | The rule fails iff no keyword is a prefix of the input. Otherwise it returns the earliest keyword in argument order that is a prefix, and the input is that keyword followed by the remainder. |
| Primitives.KeywordFromFirstMatch | parser1.py:8-11 | The same first-match property for the loop over the keywords, started at any position. |
| Primitives.KeywordOneChar | parser1.py:7-11 | With one-character keywords, a match happens iff the first character is one of them, and exactly that character is consumed. |
| Primitives.FirstOf | parser1.py:13-18 | Ordered choice as written: each parser runs on the remainder the previous, failed parser returned, the first success is returned, and no match returns the last remainder. Its behaviour is characterised by `FirstOfChoosesFirstSuccess`. |
| Primitives.FirstOfChoosesFirstSuccess | parser1.py:13-18 | If every parser returns its input on failure, ordered choice fails iff every alternative fails, and then returns the input. Otherwise it returns exactly the result of the earliest alternative that succeeds. |
| Primitives.Digit | parser1.py:20-26 | Succeeds iff the first character is `0`..`9`. The value is that digit, below 10, and exactly one character is consumed. On failure the input is unchanged, including on an empty input. |
| Numbers.SimpleNumberLoop | parser1.py:30-39 | The loop ends with no result iff it started with none and no digit follows. Its remainder never starts with a digit. |
| Numbers.SimpleNumber | parser1.py:28-39 | Fails iff the input does not start with a digit, and then returns the input. On success it consumes something, and the remainder does not start with a digit. |
| Numbers.SimpleNumberLoopValue | parser1.py:30-39 | After reading digits `p`, the loop ends with the value of `p` followed by the maximal digit run of the rest. It stops right after that run. |
| Numbers.SimpleNumberValue | parser1.py:28-39 | The rule returns the base-10 value of the maximal leading digit run, with the text after that run as remainder. With no leading digit it fails and returns the input. |
| Numbers.DecimalValueBound | parser1.py:39 | A string of k digits has a value below 10^k. |
| Numbers.FractionalNumber | parser1.py:41-57 | Succeeds iff the input starts with a digit, and then consumes something. The value is never negative. On failure the input is unchanged. |
| Numbers.DropFirst | parser1.py:50 | Python's `s[1:]`: one character shorter on non-empty text, and the empty string unchanged. |
| Numbers.FractionalPart | parser1.py:46-50 | After the whole part n the rule always succeeds, never consumes beyond its input, and its unscaled digits are at least n. |
| Numbers.FractionalDigits | parser1.py:51-57 | Reading the fraction after the skipped character always succeeds, never consumes beyond its input, and its unscaled digits are at least the whole part n. |
| Numbers.FractionalDigitsValue | parser1.py:51-57 | The fraction is the maximal digit run and its scale is the run's length. Without digits the value is the whole part and nothing more is consumed. |
| Numbers.FractionalNumberNoWhole | parser1.py:42-44 | Without a leading digit the rule fails and returns the input. |
| Numbers.FractionalNumberWholeOnly | parser1.py:46-48 | When no `.` follows the whole part, the value is the whole part. The remainder starts right after the digits. |
| Numbers.FractionalNumberEmptyFraction | parser1.py:46-53 | When a `.` follows but no digit comes after the skipped character, the value is the whole part. The remainder starts after the skipped character. |
| Numbers.FractionalNumberWithFraction | parser1.py:46-57 | When m digits follow the skipped character, the value is whole·10^m + fraction at scale m. The remainder follows those digits. |
| Numbers.FractionalNumberIsFractionalDigits | parser1.py:46-57 | When a `.` follows the whole part, the rule reads fraction digits starting two characters past the end of the whole part. |
| Numbers.FractionalNumberBounds | parser1.py:55-57 | The value lies between the whole part and the next whole number, at the value's own scale. |
| Numbers.FractionalDigitsBounds | parser1.py:51-57 | The same bound for the fractional step alone. |
| Numbers.ShiftSucc | parser1.py:56 | Scaling n+1 by 10^k adds exactly one unit of the last place to n·10^k. |
| Numbers.FractionalSkipsCharAfterDot | parser1.py:46-53 | `1.5` reads as 1 with nothing left, `1.` as 1 with the dot consumed, and `7.ab` as 7 with `b` left. |
| Numbers.FractionalScalesByDigitCount | parser1.py:50-57 | `1.25` reads as 1.5, and so does `1.05`, because its `0` is the skipped character. |
| Numbers.FractionalKeepsLeadingZeros | parser1.py:55-56 | `1.x05` reads as 1.05: the scale counts characters, so the leading zero counts. |
| Numbers.FractionalNumberConsumesPrefix | parser1.py:41-57 | On success the remainder is a proper suffix of the input. |
| Numbers.Number | parser1.py:59-68 | Succeeds iff the input starts with a digit, or with `-` followed by a digit. On failure the input is unchanged, `-` included. A result is non-negative without a sign and non-positive with one. |
| Numbers.NumberNegates | parser1.py:62-68 | A leading `-` negates whatever follows reads as, and keeps its remainder. If what follows is not a number, the `-` is not consumed. |
| Numbers.NumberSignExamples | parser1.py:59-68 | `-5` reads as -5. `-`, `-x` and the empty string fail and return the input. |
| Numbers.NumberIsFractional | parser1.py:59-68 | On unsigned input the signed rule is exactly the decimal rule. After a `-` it is the decimal rule on the tail with the value negated and the tail's remainder. If the tail fails, the result is failure with the whole input, `-` included. |
| Numbers.NumberConsumesPrefix | parser1.py:59-68 | On success the remainder is a proper suffix of the input. |
| Expressions.BracketExpr | parser1.py:70-82 | On failure the input is unchanged. On success the result is a bracket node around a well-formed sum, and something is consumed. |
| Expressions.BracketExprAllOrNothing | parser1.py:70-82 | The rule succeeds iff the input is `(`, then an expression, then `)`. It then yields that expression in brackets with the text after `)`. |
| Expressions.NumberOperand | parser1.py:85 | The number alternative of the operand rule: on failure the input is unchanged, and on success the result is a number leaf and something is consumed. |
| Expressions.MulOperand | parser1.py:84-85 | On failure the input is unchanged. On success the result is a factor (a number or a bracketed sum), and something is consumed. |
| Expressions.MulOperandIsFirstOf | parser1.py:84-85 | The operand rule equals ordered choice over the bracket rule and the number rule. |
| Expressions.MulOperandChoosesFirstSuccess | parser1.py:84-85 | The rule fails iff both the bracket rule and the number rule fail. A bracket match wins. Otherwise the number becomes a leaf. |
| Expressions.MulLoop | parser1.py:92-102 | The loop always returns a tree, built from `left` by applying `*`/`/` nodes down its left spine. It keeps products well formed, and its remainder is never longer than its input. |
| Expressions.MulLoopStops | parser1.py:92-102 | The loop never stops in front of a `*` or `/` that is followed by an operand: wherever the remainder starts with such an operator, no operand follows it. |
| Expressions.MulLoopDangling | parser1.py:97-99 | A `*` or `/` with no operand after it ends the loop with the tree so far, and the operator stays at the start of the remainder. |
| Expressions.MulLoopExit | parser1.py:93-95 | When the input does not start with `*` or `/` (or is empty), the loop returns the tree so far and leaves the input entirely unread. |
| Expressions.MulExpr | parser1.py:87-102 | On failure the input is unchanged. On success the tree is a left-leaning product of factors, and something is consumed. |
| Expressions.MulExprIsLoop | parser1.py:87-102 | Without a first operand the rule fails and returns the input. Otherwise it is the loop started on that operand, with the rest of the input, whatever the operand is. |
| Expressions.MulExprMaximal | parser1.py:87-102 | On success, the tree folds `*`/`/` to the left onto the first operand, and no further operator-operand pair follows the remainder's start. |
| Expressions.MulExprNoBareAddOps | parser1.py:87-102 | A product's tree has `+` and `-` only inside brackets. |
| Expressions.TermBareOps | parser1.py:93 | Outside brackets, a product has only `*` and `/`. |
| Expressions.SumBareOps | parser1.py:110 | Outside brackets, a sum has only the four operators. |
| Expressions.ExprBareOps | parser1.py:104-122 | The tree the expression rule returns has only `+`, `-`, `*` and `/` outside brackets. |
| Expressions.AddLoop | parser1.py:109-119 | The loop always returns a tree, built from `left` by applying `+`/`-` nodes down its left spine. It keeps sums well formed, and its remainder is never longer than its input. |
| Expressions.AddLoopStops | parser1.py:109-119 | The loop never stops in front of a `+` or `-` that is followed by a product: wherever the remainder starts with such an operator, no product follows it. |
| Expressions.AddLoopDangling | parser1.py:114-116 | A `+` or `-` with no product after it ends the loop with the tree so far, and the operator stays at the start of the remainder. |
| Expressions.AddLoopExit | parser1.py:110-112 | When the input does not start with `+` or `-` (or is empty), the loop returns the tree so far and leaves the input entirely unread. |
| Expressions.AddExpr | parser1.py:104-119 | On failure the input is unchanged. On success the tree is a left-leaning sum of products, and something is consumed. |
| Expressions.AddExprIsLoop | parser1.py:104-119 | Without a first product the rule fails and returns the input. Otherwise it is the loop started on that product, with the rest of the input. |
| Expressions.AddExprMaximal | parser1.py:104-119 | On success, the tree folds `+`/`-` to the left onto the first product, and no further operator-product pair follows the remainder's start. |
| Expressions.Expr | parser1.py:121-122 | On failure the input is unchanged. On success the tree is a well-formed sum, and something is consumed. |
| Expressions.ExprIsFirstOf | parser1.py:121-122 | The expression rule equals ordered choice with the sum rule as its only alternative. |
| Expressions.FoldsOntoStep | parser1.py:101 | Folding onto `left op right` is folding onto `left` one step further. |
| Expressions.MulLoopStep | parser1.py:93-102 | An operator followed by an operand extends the product on the right and continues after the operand. |
| Expressions.AddLoopStep | parser1.py:110-119 | An operator followed by a product extends the sum on the right and continues after the product. |
| Expressions.BracketExprConsumesPrefix | parser1.py:70-82 | On success the remainder is a proper suffix of the input. |
| Expressions.MulOperandConsumesPrefix | parser1.py:84-85 | On success the remainder is a proper suffix of the input. |
| Expressions.MulLoopIsSuffix | parser1.py:92-102 | The loop's remainder is a suffix of its input. |
| Expressions.MulExprConsumesPrefix | parser1.py:87-102 | On success the remainder is a proper suffix of the input. |
| Expressions.AddLoopIsSuffix | parser1.py:109-119 | The loop's remainder is a suffix of its input. |
| Expressions.AddExprConsumesPrefix | parser1.py:104-119 | On success the remainder is a proper suffix of the input. |
| Expressions.ExprConsumesPrefix | parser1.py:121-122 | On success the remainder is a proper suffix of the input. |
| Printing.NatDigitsValue | parser1.py:28-39 | Reading the printed digits of n gives back n. |
| Printing.DigitRunOfDigits | parser1.py:28-39 | The leading digit run of a digit string followed by a non-digit is exactly that digit string. |
| Printing.FractionalNumberShowNat | parser1.py:41-48 | The decimal rule reads printed digits back as the same whole number, when no digit or `.` follows. |
| Printing.NumberShowInt | parser1.py:59-68 | The signed rule reads a printed whole number back, sign included, when no digit or `.` follows. |
| Printing.FactorRoundTrip | parser1.py:70-85 | The operand rule reads back a printed factor, leaving exactly the text that follows. |
| Printing.TermPrefix | parser1.py:87-102 | The product rule reads a printed product and then continues its loop with that product as left operand. |
| Printing.TermRoundTrip | parser1.py:87-102 | The product rule reads back a printed product, when no digit, `.`, `*` or `/` follows. |
| Printing.SumPrefix | parser1.py:104-119 | The sum rule reads a printed sum and then continues its loop with that sum as left operand. |
| Printing.SumRoundTrip | parser1.py:104-122 | The expression rule reads back a printed sum, when no digit, `.` or operator follows. |
| Printing.ShowParses | parser1.py:121-122 | The whole printed text of a well-formed tree with whole-number leaves parses back to that tree, with nothing left. |
| Examples.MulAfterAddExample | parser1.py:87-122 | `2+3*4` parses as 2 + (3 * 4). |
| Examples.MulBeforeAddExample | parser1.py:87-122 | `2*3+4` parses as (2 * 3) + 4. |
| Examples.SubtractionExample | parser1.py:104-119 | `1-2-3` parses as (1 - 2) - 3. |
| Examples.DivisionExample | parser1.py:87-102 | `8/4/2` parses as (8 / 4) / 2. |
| Examples.SignedOperandExample | parser1.py:59-68 | `1--2` parses as 1 - (-2). |
| Examples.BracketExample | parser1.py:70-102 | `(1+2)*3` parses as a product whose left operand is the bracketed sum. |
| Examples.UnclosedBracketExample | parser1.py:70-82 | `(1+2` does not parse, and the input is returned whole. |
| Examples.DanglingAddExample | parser1.py:109-116 | `1+` parses as 1, with `+` left over. |
| Examples.DanglingMulExample | parser1.py:92-99 | `1*` parses as the product 1, with `*` left over. |
| Examples.DigitAfterBracketExample | parser1.py:79-122 | `(1)5` parses as the bracketed 1, with `5` left over: a digit after `)` is not an operator and is not read. |
| Examples.FractionalOperandNumber | parser1.py:41-57 | The decimal rule reads `1.x5*2` as 1.5, leaving `*2`. |
| Examples.FractionalOperandExample | parser1.py:41-102 | `1.x5*2` parses as the product of 1.5 and 2, with nothing left over. |

## Left out

- IEEE-754 rounding of the division at parser1.py:56 is not modelled. Values are exact decimals, so the value eleven tenths (read from the text `1.x1`) is exact.
- Python's int/float distinction is not modelled. A number without a fraction has scale 0, and one with a fraction has a positive scale. There is one numeric type.
- The variadic `*parsers` and `*keywords` arguments become a sequence of parsers and a sequence of strings.
- The `while True` loops are tail-recursive functions. Reassigning `s` and `l_value` becomes passing the new tail and the new tree.
- The operator in a tree node is the matched keyword string, as in the tuple `(op, l_value, r_value)` built on lines 101 and 118. The tags `"brackets"` and the number leaf become datatype constructors.
- Printing.ShowParses: the round trip covers trees whose numbers are whole. A printer for fractional values would have to invent the character that the fractional rule skips, so it is not provided.
- Numbers.FractionalNumber: the OverflowError that Python raises on line 56 is not modelled. It occurs when a whole part too large for a float (about 1.8·10^308 or more, so at least 309 digits) meets a fraction, and the model returns the exact decimal instead.
- Expressions.Expr: Python's recursion limit is not modelled. Each bracket level costs about seven Python frames, so nesting deeper than roughly 140 levels raises RecursionError in `parser1.py`, while the model parses any depth.
- The file has no I/O, evaluation or shared state, so there is nothing of that kind to model.

=== FILE: examples.dfy ===
/** Worked inputs for the expression rules, each following from the general
    lemmas. */
module Examples {
  import opened Results
  import opened Numbers
  import opened Expressions
  import opened Printing

  /** A whole-number leaf. */
  function N(i: int): Node {
    Num(Decimal(i, 0))
  }

  lemma ShowDigit(d: nat)
    requires d < 10
    ensures Show(N(d)) == [DigitChar(d)]
    ensures d > 0 ==> Show(N(-(d as int))) == ['-', DigitChar(d)]
  {
  }

  /** `*` binds tighter than a `+` before it. */
  lemma MulAfterAddExample()
    ensures Expr("2+3*4") == Parsed(Some(Bin("+", N(2), Bin("*", N(3), N(4)))), "")
  {
    var e := Bin("+", N(2), Bin("*", N(3), N(4)));
    assert Show(e) == "2+3*4" by {
      ShowDigit(2); ShowDigit(3); ShowDigit(4);
    }
    ShowParses(e);
  }

  /** `*` binds tighter than a `+` after it. */
  lemma MulBeforeAddExample()
    ensures Expr("2*3+4") == Parsed(Some(Bin("+", Bin("*", N(2), N(3)), N(4))), "")
  {
    var e := Bin("+", Bin("*", N(2), N(3)), N(4));
    assert Show(e) == "2*3+4" by {
      ShowDigit(2); ShowDigit(3); ShowDigit(4);
    }
    ShowParses(e);
  }

  /** Subtraction groups to the left. */
  lemma SubtractionExample()
    ensures Expr("1-2-3") == Parsed(Some(Bin("-", Bin("-", N(1), N(2)), N(3))), "")
  {
    var e := Bin("-", Bin("-", N(1), N(2)), N(3));
    assert Show(e) == "1-2-3" by {
      ShowDigit(1); ShowDigit(2); ShowDigit(3);
    }
    ShowParses(e);
  }

  /** Division groups to the left. */
  lemma DivisionExample()
    ensures Expr("8/4/2") == Parsed(Some(Bin("/", Bin("/", N(8), N(4)), N(2))), "")
  {
    var e := Bin("/", Bin("/", N(8), N(4)), N(2));
    assert Show(e) == "8/4/2" by {
      ShowDigit(8); ShowDigit(4); ShowDigit(2);
    }
    ShowParses(e);
  }

  /** A minus sign right after an operator belongs to the number. */
  lemma SignedOperandExample()
    ensures Expr("1--2") == Parsed(Some(Bin("-", N(1), N(-2))), "")
  {
    var e := Bin("-", N(1), N(-2));
    assert Show(e) == "1--2" by {
      ShowDigit(1); ShowDigit(2);
    }
    ShowParses(e);
  }

  /** Brackets override precedence and stay in the tree. */
  lemma BracketExample()
    ensures Expr("(1+2)*3") == Parsed(Some(Bin("*", Brackets(Bin("+", N(1), N(2))), N(3))), "")
  {
    var e := Bin("*", Brackets(Bin("+", N(1), N(2))), N(3));
    assert Show(e) == "(1+2)*3" by {
      ShowDigit(1); ShowDigit(2); ShowDigit(3);
    }
    ShowParses(e);
  }

  /** An unclosed bracket makes the whole expression fail, consuming
      nothing. */
  lemma UnclosedBracketExample()
    ensures Expr("(1+2") == Parsed(None, "(1+2")
  {
    var e := Bin("+", N(1), N(2));
    assert Show(e) == "1+2" by {
      ShowDigit(1); ShowDigit(2);
    }
    ShowParses(e);
    assert "(1+2"[1..] == "1+2";
    BracketExprAllOrNothing("(1+2");
    MulOperandChoosesFirstSuccess("(1+2");
  }

  /** A `+` with nothing after it is left unread. */
  lemma DanglingAddExample()
    ensures Expr("1+") == Parsed(Some(N(1)), "+")
  {
    ShowDigit(1);
    assert "1+" == Show(N(1)) + "+";
    SumPrefix(N(1), "+");
    AddLoopStops(N(1), "+");
  }

  /** A `*` with nothing after it is left unread. */
  lemma DanglingMulExample()
    ensures MulExpr("1*") == Parsed(Some(N(1)), "*")
  {
    ShowDigit(1);
    assert "1*" == Show(N(1)) + "*";
    TermPrefix(N(1), "*");
    MulLoopStops(N(1), "*");
  }

  /** A digit right after a closing bracket is no operator: the expression
      ends at the bracket and the digit is left unread. */
  lemma DigitAfterBracketExample()
    ensures Expr("(1)5") == Parsed(Some(Brackets(N(1))), "5")
  {
    ShowDigit(1);
    assert "(1)5"[1..] == Show(N(1)) + ")5";
    SumRoundTrip(N(1), ")5");
    BracketExprAllOrNothing("(1)5");
    MulLoopExit(Brackets(N(1)), "5");
    AddLoopExit(Brackets(N(1)), "5");
  }

  /** The decimal rule reads `1.x5` as 1.5, leaving `*2`. */
  lemma FractionalOperandNumber()
    ensures FractionalNumber("1.x5*2") == Parsed(Some(Decimal(15, 1)), "*2")
  {
    var s := "1.x5*2";
    assert DigitRun(s) == 1 by {
      assert s[1..][0] == '.';
    }
    assert AfterWhole(s) == ".x5*2";
    assert AfterDot(s) == "5*2";
    assert DigitRun("5*2") == 1 by {
      assert "5*2"[1..][0] == '*';
    }
    assert s[..1] == "1" && "5*2"[..1] == "5" && "5*2"[1..] == "*2";
    FractionalNumberWithFraction(s);
  }

  /** A fractional first operand is extended by the loop like any other:
      `1.x5*2` is the product of 1.5 and 2. */
  lemma FractionalOperandExample()
    ensures MulExpr("1.x5*2") == Parsed(Some(Bin("*", Num(Decimal(15, 1)), N(2))), "")
  {
    var s := "1.x5*2";
    FractionalOperandNumber();
    MulOperandChoosesFirstSuccess(s);
    MulExprIsLoop(s);
    assert MulOperand(s) == Parsed(Some(Num(Decimal(15, 1))), "*2");
    ShowDigit(2);
    FactorRoundTrip(N(2), "");
    assert "2" + "" == "2";
    MulLoopStep(Num(Decimal(15, 1)), "*", "2");
    MulLoopExit(Bin("*", Num(Decimal(15, 1)), N(2)), "");
  }
}

=== FILE: expressions.dfy ===
/** The structural rules of the grammar: bracketed expressions, operands,
    products and sums, and the trees they build. */
module Expressions {
  import opened Results
  import opened Primitives
  import opened Numbers

  /** A parse tree: a number, a bracketed expression, or a binary operation
      `(op, left, right)` whose operator is the keyword that was matched. */
  datatype Node = Num(value: Decimal) | Brackets(inner: Node) | Bin(op: string, left: Node, right: Node)

  const MulOps: seq<string> := ["*", "/"]
  const AddOps: seq<string> := ["+", "-"]

  /** The three levels of the grammar, read off a tree. A factor is a number
      or a bracketed sum. */
  predicate IsFactor(e: Node)
    decreases e, 0
  {
    match e
    case Num(_) => true
    case Brackets(inner) => IsSum(inner)
    case Bin(_, _, _) => false
  }

  /** A term is a factor, or a term extended on the right by `*` or `/` and a
      factor: products lean to the left. */
  predicate IsTerm(e: Node)
    decreases e, 1
  {
    if e.Bin? then e.op in MulOps && IsTerm(e.left) && IsFactor(e.right)
    else IsFactor(e)
  }

  /** A sum is a term, or a sum extended on the right by `+` or `-` and a
      term. */
  predicate IsSum(e: Node)
    decreases e, 2
  {
    if e.Bin? && e.op in AddOps then IsSum(e.left) && IsTerm(e.right)
    else IsTerm(e)
  }

  /** `e` is `base` with zero or more operators from `ops` applied on its
      left spine: `((base op x) op y) ...`. */
  predicate FoldsOnto(e: Node, base: Node, ops: seq<string>)
    decreases e
  {
    e == base || (e.Bin? && e.op in ops && FoldsOnto(e.left, base, ops))
  }

  /** Folding onto `(left op right)` is folding onto `left` one step
      further. */
  lemma {:induction false} FoldsOntoStep(e: Node, left: Node, op: string, right: Node, ops: seq<string>)
    requires op in ops && FoldsOnto(e, Bin(op, left, right), ops)
    ensures FoldsOnto(e, left, ops)
    decreases e
  {
    if e != Bin(op, left, right) {
      FoldsOntoStep(e.left, left, op, right, ops);
    }
  }

  /** The operators of `e` that are not enclosed in brackets. */
  function BareOps(e: Node): set<string> {
    match e
    case Num(_) => {}
    case Brackets(_) => {}
    case Bin(op, l, r) => {op} + BareOps(l) + BareOps(r)
  }

  /** `(` expression `)`; any part missing and nothing is consumed. */
  function BracketExpr(s: string): (r: Parsed<Node>)
    ensures Honest(s, r)
    ensures r.result.Some? ==> r.result.value.Brackets? && IsFactor(r.result.value)
    decreases |s|, 0
  {
    var Parsed(open, t) := Keyword(s, ["("]);
    if open.None? then Parsed(None, s)
    else
      var Parsed(e, u) := Expr(t);
      if e.None? then Parsed(None, s)
      else
        var Parsed(close, v) := Keyword(u, [")"]);
        if close.None? then Parsed(None, s)
        else Parsed(Some(Brackets(e.value)), v)
  }

  /** The signed-number rule, with its value made a leaf of the tree. */
  function NumberOperand(s: string): (r: Parsed<Node>)
    ensures Honest(s, r)
    ensures r.result.Some? ==> r.result.value.Num?
  {
    var Parsed(n, t) := Number(s);
    if n.None? then Parsed(None, t) else Parsed(Some(Num(n.value)), t)
  }

  /** An operand of `*` and `/`: the ordered choice of a bracketed expression
      and a number (see `MulOperandIsFirstOf`). */
  function MulOperand(s: string): (r: Parsed<Node>)
    ensures Honest(s, r)
    ensures r.result.Some? ==> IsFactor(r.result.value)
    decreases |s|, 1
  {
    var b := BracketExpr(s);
    if b.result.Some? then b else NumberOperand(b.rest)
  }

  /** The loop of the product rule, with `left` the product read so far: an
      operator `*` or `/` followed by an operand extends it; otherwise the
      loop stops in front of the operator. */
  function MulLoop(left: Node, s: string): (r: Parsed<Node>)
    ensures r.result.Some? && |r.rest| <= |s|
    ensures FoldsOnto(r.result.value, left, MulOps)
    ensures IsTerm(left) ==> IsTerm(r.result.value)
    decreases |s|, 2
  {
    var Parsed(op, t) := Keyword(s, MulOps);
    if op.None? then Parsed(Some(left), s)
    else
      var Parsed(right, u) := MulOperand(t);
      if right.None? then Parsed(Some(left), s)
      else
        var r := MulLoop(Bin(op.value, left, right.value), u);
        FoldsOntoStep(r.result.value, left, op.value, right.value, MulOps);
        r
  }

  /** A product: an operand, then the loop. */
  function MulExpr(s: string): (r: Parsed<Node>)
    ensures Honest(s, r)
    ensures r.result.Some? ==> IsTerm(r.result.value)
    decreases |s|, 2
  {
    var Parsed(l, t) := MulOperand(s);
    if l.None? then Parsed(None, t)
    else MulLoop(l.value, t)
  }

  /** The loop of the sum rule, with `left` the sum read so far: an operator
      `+` or `-` followed by a product extends it; otherwise the loop stops in
      front of the operator. */
  function AddLoop(left: Node, s: string): (r: Parsed<Node>)
    ensures r.result.Some? && |r.rest| <= |s|
    ensures FoldsOnto(r.result.value, left, AddOps)
    ensures IsSum(left) ==> IsSum(r.result.value)
    decreases |s|, 3
  {
    var Parsed(op, t) := Keyword(s, AddOps);
    if op.None? then Parsed(Some(left), s)
    else
      var Parsed(right, u) := MulExpr(t);
      if right.None? then Parsed(Some(left), s)
      else
        var r := AddLoop(Bin(op.value, left, right.value), u);
        FoldsOntoStep(r.result.value, left, op.value, right.value, AddOps);
        r
  }

  /** A sum: a product, then the loop. */
  function AddExpr(s: string): (r: Parsed<Node>)
    ensures Honest(s, r)
    ensures r.result.Some? ==> IsSum(r.result.value)
    decreases |s|, 3
  {
    var Parsed(l, t) := MulExpr(s);
    if l.None? then Parsed(None, t)
    else AddLoop(l.value, t)
  }

  /** An expression: the ordered choice with the sum as its only
      alternative. */
  function Expr(s: string): (r: Parsed<Node>)
    ensures Honest(s, r)
    ensures r.result.Some? ==> IsSum(r.result.value)
    decreases |s|, 4
  {
    var a := AddExpr(s);
    if a.result.Some? then a else Parsed(None, a.rest)
  }

  /** The operand rule is the ordered choice of its two alternatives. */
  lemma MulOperandIsFirstOf(s: string)
    ensures MulOperand(s) == FirstOf(s, [BracketExpr, NumberOperand])
  {
    var ps: seq<string -> Parsed<Node>> := [BracketExpr, NumberOperand];
    assert ps[1..] == [NumberOperand];
    var b := BracketExpr(s);
    if b.result.None? {
      var n := NumberOperand(b.rest);
      assert FirstOf(n.rest, ps[2..]) == Parsed(None, n.rest);
    }
  }

  /** The expression rule is the ordered choice with the sum as its only
      alternative. */
  lemma ExprIsFirstOf(s: string)
    ensures Expr(s) == FirstOf(s, [AddExpr])
  {
  }

  /** An operand is a bracketed expression when one starts here, and
      otherwise a number; it fails, consuming nothing, when neither does. */
  lemma MulOperandChoosesFirstSuccess(s: string)
    ensures MulOperand(s).result.None? <==> BracketExpr(s).result.None? && Number(s).result.None?
    ensures MulOperand(s).result.None? ==> MulOperand(s).rest == s
    ensures BracketExpr(s).result.Some? ==> MulOperand(s) == BracketExpr(s)
    ensures BracketExpr(s).result.None? && Number(s).result.Some? ==>
              MulOperand(s) == Parsed(Some(Num(Number(s).result.value)), Number(s).rest)
  {
  }

  /** The bracket rule succeeds exactly when `(`, an expression and `)`
      follow each other, and then consumes all three. */
  lemma BracketExprAllOrNothing(s: string)
    ensures BracketExpr(s).result.Some? <==>
              && |s| > 0 && s[0] == '('
              && Expr(s[1..]).result.Some?
              && |Expr(s[1..]).rest| > 0 && Expr(s[1..]).rest[0] == ')'
    ensures BracketExpr(s).result.Some? ==>
              BracketExpr(s) == Parsed(Some(Brackets(Expr(s[1..]).result.value)), Expr(s[1..]).rest[1..])
  {
  }

  /** One round of the product loop: an operator and an operand extend the
      product on the right. */
  lemma MulLoopStep(left: Node, op: string, s: string)
    requires op in MulOps && MulOperand(s).result.Some?
    ensures var right := MulOperand(s);
            MulLoop(left, op + s) == MulLoop(Bin(op, left, right.result.value), right.rest)
  {
    KeywordOneChar(op + s, MulOps);
    assert (op + s)[1..] == s && [(op + s)[0]] == op;
  }

  /** One round of the sum loop: an operator and a product extend the sum
      on the right. */
  lemma AddLoopStep(left: Node, op: string, s: string)
    requires op in AddOps && MulExpr(s).result.Some?
    ensures var right := MulExpr(s);
            AddLoop(left, op + s) == AddLoop(Bin(op, left, right.result.value), right.rest)
  {
    KeywordOneChar(op + s, AddOps);
    assert (op + s)[1..] == s && [(op + s)[0]] == op;
  }

  /** An operator `*` or `/` with no operand after it ends the product loop
      in front of the operator: the remainder still starts with it. */
  lemma MulLoopDangling(left: Node, op: string, t: string)
    requires op in MulOps && MulOperand(t).result.None?
    ensures MulLoop(left, op + t) == Parsed(Some(left), op + t)
  {
    KeywordOneChar(op + t, MulOps);
    assert (op + t)[1..] == t && [(op + t)[0]] == op;
  }

  /** An operator `+` or `-` with no product after it ends the sum loop in
      front of the operator: the remainder still starts with it. */
  lemma AddLoopDangling(left: Node, op: string, t: string)
    requires op in AddOps && MulExpr(t).result.None?
    ensures AddLoop(left, op + t) == Parsed(Some(left), op + t)
  {
    KeywordOneChar(op + t, AddOps);
    assert (op + t)[1..] == t && [(op + t)[0]] == op;
  }

  /** Without an operator `*` or `/` at the start, the product loop reads
      nothing: the product so far is the result and the input is the
      remainder. */
  lemma MulLoopExit(left: Node, s: string)
    requires |s| == 0 || s[0] !in "*/"
    ensures MulLoop(left, s) == Parsed(Some(left), s)
  {
    KeywordOneChar(s, MulOps);
  }

  /** Without an operator `+` or `-` at the start, the sum loop reads
      nothing: the sum so far is the result and the input is the
      remainder. */
  lemma AddLoopExit(left: Node, s: string)
    requires |s| == 0 || s[0] !in "+-"
    ensures AddLoop(left, s) == Parsed(Some(left), s)
  {
    KeywordOneChar(s, AddOps);
  }

  /** The product rule is its first operand followed by the loop on what
      remains, whatever the operand's value; without an operand it fails and
      returns the input. */
  lemma MulExprIsLoop(s: string)
    ensures MulOperand(s).result.None? ==> MulExpr(s) == Parsed(None, s)
    ensures MulOperand(s).result.Some? ==>
              MulExpr(s) == MulLoop(MulOperand(s).result.value, MulOperand(s).rest)
  {
  }

  /** The sum rule is its first product followed by the loop on what
      remains; without a product it fails and returns the input. */
  lemma AddExprIsLoop(s: string)
    ensures MulExpr(s).result.None? ==> AddExpr(s) == Parsed(None, s)
    ensures MulExpr(s).result.Some? ==>
              AddExpr(s) == AddLoop(MulExpr(s).result.value, MulExpr(s).rest)
  {
  }

  /** The product loop never stops in front of an operator `*` or `/` that
      is followed by an operand. */
  lemma {:induction false} MulLoopStops(left: Node, s: string)
    ensures var r := MulLoop(left, s);
            |r.rest| == 0 || r.rest[0] !in "*/" || MulOperand(r.rest[1..]).result.None?
    decreases |s|
  {
    KeywordOneChar(s, MulOps);
    var Parsed(op, t) := Keyword(s, MulOps);
    if op.Some? {
      var Parsed(right, u) := MulOperand(t);
      if right.Some? {
        MulLoopStops(Bin(op.value, left, right.value), u);
      }
    }
  }

  /** The sum loop never stops in front of an operator `+` or `-` that is
      followed by a product. */
  lemma {:induction false} AddLoopStops(left: Node, s: string)
    ensures var r := AddLoop(left, s);
            |r.rest| == 0 || r.rest[0] !in "+-" || MulExpr(r.rest[1..]).result.None?
    decreases |s|
  {
    KeywordOneChar(s, AddOps);
    var Parsed(op, t) := Keyword(s, AddOps);
    if op.Some? {
      var Parsed(right, u) := MulExpr(t);
      if right.Some? {
        AddLoopStops(Bin(op.value, left, right.value), u);
      }
    }
  }

  /** A product is maximal: it is built on its first operand by folding
      `*` and `/` to the left, and it stops only where no operator-operand
      pair follows. */
  lemma MulExprMaximal(s: string)
    ensures var r := MulExpr(s);
            r.result.Some? ==>
              && MulOperand(s).result.Some?
              && FoldsOnto(r.result.value, MulOperand(s).result.value, MulOps)
              && (|r.rest| == 0 || r.rest[0] !in "*/" || MulOperand(r.rest[1..]).result.None?)
  {
    var Parsed(l, t) := MulOperand(s);
    if l.Some? {
      MulLoopStops(l.value, t);
    }
  }

  /** A sum is maximal: it is built on its first product by folding `+` and
      `-` to the left, and it stops only where no operator-product pair
      follows. */
  lemma AddExprMaximal(s: string)
    ensures var r := AddExpr(s);
            r.result.Some? ==>
              && MulExpr(s).result.Some?
              && FoldsOnto(r.result.value, MulExpr(s).result.value, AddOps)
              && (|r.rest| == 0 || r.rest[0] !in "+-" || MulExpr(r.rest[1..]).result.None?)
  {
    var Parsed(l, t) := MulExpr(s);
    if l.Some? {
      AddLoopStops(l.value, t);
    }
  }

  /** A term has no bare `+` or `-`: those occur only inside brackets. */
  lemma {:induction false} TermBareOps(e: Node)
    requires IsTerm(e)
    ensures BareOps(e) <= {"*", "/"}
    decreases e
  {
    if e.Bin? {
      TermBareOps(e.left);
    }
  }

  /** A sum has only the four operators outside brackets. */
  lemma {:induction false} SumBareOps(e: Node)
    requires IsSum(e)
    ensures BareOps(e) <= {"+", "-", "*", "/"}
    decreases e
  {
    if e.Bin? && e.op in AddOps {
      SumBareOps(e.left);
      TermBareOps(e.right);
    } else {
      TermBareOps(e);
    }
  }

  /** The tree of an expression has only the four operators outside
      brackets. */
  lemma ExprBareOps(s: string)
    ensures Expr(s).result.Some? ==> BareOps(Expr(s).result.value) <= {"+", "-", "*", "/"}
  {
    if Expr(s).result.Some? {
      SumBareOps(Expr(s).result.value);
    }
  }

  /** The tree of a product holds `+` and `-` only inside brackets. */
  lemma MulExprNoBareAddOps(s: string)
    ensures MulExpr(s).result.Some? ==> BareOps(MulExpr(s).result.value) !! {"+", "-"}
  {
    if MulExpr(s).result.Some? {
      TermBareOps(MulExpr(s).result.value);
    }
  }

  // On success every structural rule has consumed a non-empty prefix of its
  // input; the loops leave a (possibly equal) suffix.

  lemma BracketExprConsumesPrefix(s: string)
    ensures ConsumesPrefix(s, BracketExpr(s))
    decreases |s|, 0
  {
    if BracketExpr(s).result.Some? {
      BracketExprAllOrNothing(s);
      var t := s[1..];
      var u := Expr(t).rest;
      ExprConsumesPrefix(t);
      DropIsSuffix(s, 1);
      SuffixTransitive(u, t, s);
      SuffixDrop(u, s, 1);
    }
  }

  lemma MulOperandConsumesPrefix(s: string)
    ensures ConsumesPrefix(s, MulOperand(s))
    decreases |s|, 1
  {
    BracketExprConsumesPrefix(s);
    NumberConsumesPrefix(s);
  }

  lemma MulLoopIsSuffix(left: Node, s: string)
    ensures IsSuffix(MulLoop(left, s).rest, s)
    decreases |s|, 2
  {
    KeywordOneChar(s, MulOps);
    var Parsed(op, t) := Keyword(s, MulOps);
    DropIsSuffix(s, 0);
    if op.Some? {
      var Parsed(right, u) := MulOperand(t);
      if right.Some? {
        MulOperandConsumesPrefix(t);
        MulLoopIsSuffix(Bin(op.value, left, right.value), u);
        DropIsSuffix(s, 1);
        SuffixTransitive(u, t, s);
        SuffixTransitive(MulLoop(left, s).rest, u, s);
      }
    }
  }

  lemma MulExprConsumesPrefix(s: string)
    ensures ConsumesPrefix(s, MulExpr(s))
    decreases |s|, 2
  {
    MulOperandConsumesPrefix(s);
    var Parsed(l, t) := MulOperand(s);
    if l.Some? {
      MulLoopIsSuffix(l.value, t);
      SuffixTransitive(MulExpr(s).rest, t, s);
    }
  }

  lemma AddLoopIsSuffix(left: Node, s: string)
    ensures IsSuffix(AddLoop(left, s).rest, s)
    decreases |s|, 3
  {
    KeywordOneChar(s, AddOps);
    var Parsed(op, t) := Keyword(s, AddOps);
    DropIsSuffix(s, 0);
    if op.Some? {
      var Parsed(right, u) := MulExpr(t);
      if right.Some? {
        MulExprConsumesPrefix(t);
        AddLoopIsSuffix(Bin(op.value, left, right.value), u);
        DropIsSuffix(s, 1);
        SuffixTransitive(u, t, s);
        SuffixTransitive(AddLoop(left, s).rest, u, s);
      }
    }
  }

  lemma AddExprConsumesPrefix(s: string)
    ensures ConsumesPrefix(s, AddExpr(s))
    decreases |s|, 3
  {
    MulExprConsumesPrefix(s);
    var Parsed(l, t) := MulExpr(s);
    if l.Some? {
      AddLoopIsSuffix(l.value, t);
      SuffixTransitive(AddExpr(s).rest, t, s);
    }
  }

  lemma ExprConsumesPrefix(s: string)
    ensures ConsumesPrefix(s, Expr(s))
    decreases |s|, 4
  {
    AddExprConsumesPrefix(s);
  }
}

=== FILE: numbers.dfy ===
/** The numeric rules: an unsigned run of digits, a decimal number, and a
    number with an optional leading minus sign. */
module Numbers {
  import opened Results
  import opened Primitives

  /** An exact decimal number, `digits / 10^scale`. A whole number has scale 0. */
  datatype Decimal = Decimal(digits: int, scale: nat) {
    function Negate(): Decimal {
      Decimal(-digits, scale)
    }
  }

  /** Reference definitions, independent of the parsing rules. */

  predicate AllDigits(ds: string) {
    forall i :: 0 <= i < |ds| ==> IsDigit(ds[i])
  }

  function Pow10(k: nat): (p: nat)
    ensures p >= 1
  {
    if k == 0 then 1 else 10 * Pow10(k - 1)
  }

  /** `n * 10^k`, written as `k` shifts by one decimal place. */
  function Shift(n: nat, k: nat): (r: nat)
    ensures r >= n
  {
    if k == 0 then n else Shift(n, k - 1) * 10
  }

  /** The base-10 value of a string of digits, most significant digit first. */
  function DecimalValue(ds: string): nat
    requires AllDigits(ds)
  {
    if |ds| == 0 then 0
    else DecimalValue(ds[..|ds| - 1]) * 10 + DigitValue(ds[|ds| - 1])
  }

  /** The length of the longest prefix of `s` made only of digits. */
  function DigitRun(s: string): (k: nat)
    ensures k <= |s|
    ensures AllDigits(s[..k])
    ensures k == |s| || !IsDigit(s[k])
  {
    if |s| > 0 && IsDigit(s[0]) then 1 + DigitRun(s[1..]) else 0
  }

  /** Python's `s[1:]`, which is empty on an empty string. */
  function DropFirst(s: string): (t: string)
    ensures |s| > 0 ==> |t| == |s| - 1
    ensures |s| == 0 ==> t == s
  {
    if |s| == 0 then s else s[1..]
  }

  /** The loop of the unsigned-integer rule: `acc` is the value read so far
      (`None` before the first digit); each further digit `d` turns it into
      `acc * 10 + d`. */
  function SimpleNumberLoop(acc: Option<nat>, s: string): (r: Parsed<nat>)
    ensures |r.rest| <= |s|
    ensures r.result.None? <==> acc.None? && (|s| == 0 || !IsDigit(s[0]))
    ensures r.result.None? ==> r.rest == s
    ensures acc.None? && r.result.Some? ==> |r.rest| < |s|
    ensures r.rest == [] || !IsDigit(r.rest[0])
    decreases |s|
  {
    var Parsed(d, t) := Digit(s);
    if d.None? then Parsed(acc, t)
    else
      var acc' := if acc.None? then d.value else acc.value * 10 + d.value;
      SimpleNumberLoop(Some(acc'), t)
  }

  /** Unsigned integer: the maximal leading run of digits, which must not be
      empty. */
  function SimpleNumber(s: string): (r: Parsed<nat>)
    ensures Honest(s, r)
    ensures r.result.Some? <==> |s| > 0 && IsDigit(s[0])
    ensures r.rest == [] || !IsDigit(r.rest[0])
  {
    SimpleNumberLoop(None, s)
  }

  /** Decimal number as `fractional_number` computes it: an unsigned integer, then
      the optional fractional part. */
  function FractionalNumber(s: string): (r: Parsed<Decimal>)
    ensures Honest(s, r)
    ensures r.result.Some? <==> |s| > 0 && IsDigit(s[0])
    ensures r.result.Some? ==> r.result.value.digits >= 0
  {
    var Parsed(n, t) := SimpleNumber(s);
    if n.None? then Parsed(None, t)
    else FractionalPart(n.value, t)
  }

  /** What follows the whole part `n`: a `.` is matched as a keyword (which
      already consumes it), and then one further character is dropped before
      the fractional digits are read. */
  function FractionalPart(n: nat, t: string): (r: Parsed<Decimal>)
    ensures r.result.Some? && |r.rest| <= |t|
    ensures r.result.value.digits >= n
  {
    var Parsed(dot, t') := Keyword(t, ["."]);
    if dot.None? then Parsed(Some(Decimal(n, 0)), t')
    else FractionalDigits(n, DropFirst(t'))
  }

  /** The fractional digits at the start of `fs` added to the whole part `n`,
      scaled by the number of characters they occupy; without digits the
      value stays `n`. */
  function FractionalDigits(n: nat, fs: string): (r: Parsed<Decimal>)
    ensures r.result.Some? && |r.rest| <= |fs|
    ensures r.result.value.digits >= n
  {
    var Parsed(f, u) := SimpleNumber(fs);
    if f.None? then Parsed(Some(Decimal(n, 0)), u)
    else
      var count := |fs| - |u|;
      Parsed(Some(Decimal(Shift(n, count) + f.value, count)), u)
  }

  /** A signed number: the decimal rule, optionally preceded by `-`, which
      negates the value. A `-` with no number after it is not consumed. */
  function Number(s: string): (r: Parsed<Decimal>)
    ensures Honest(s, r)
    ensures r.result.Some? <==>
              (|s| > 0 && IsDigit(s[0])) || (|s| > 1 && s[0] == '-' && IsDigit(s[1]))
    ensures r.result.Some? && s[0] != '-' ==> r.result.value.digits >= 0
    ensures r.result.Some? && s[0] == '-' ==> r.result.value.digits <= 0
  {
    if |s| == 0 then Parsed(None, s)
    else if s[0] != '-' then FractionalNumber(s)
    else
      var Parsed(n, t) := FractionalNumber(s[1..]);
      if n.None? then Parsed(None, s)
      else Parsed(Some(n.value.Negate()), t)
  }

  /** A string of `k` digits has a value below `10^k`. */
  lemma {:induction false} DecimalValueBound(ds: string)
    requires AllDigits(ds)
    ensures DecimalValue(ds) < Pow10(|ds|)
    decreases |ds|
  {
    if |ds| > 0 {
      DecimalValueBound(ds[..|ds| - 1]);
    }
  }

  /** The loop accumulates, most significant digit first: having read the
      digits `p`, it ends with the value of `p` extended by the maximal run of
      digits that follows. */
  lemma {:induction false} SimpleNumberLoopValue(p: string, s: string)
    requires AllDigits(p)
    ensures AllDigits(p + s[..DigitRun(s)])
    ensures SimpleNumberLoop(Some(DecimalValue(p)), s)
              == Parsed(Some(DecimalValue(p + s[..DigitRun(s)])), s[DigitRun(s)..])
    decreases |s|
  {
    var k := DigitRun(s);
    if |s| > 0 && IsDigit(s[0]) {
      var t := s[1..];
      var p' := p + [s[0]];
      assert AllDigits(p');
      assert DecimalValue(p') == DecimalValue(p) * 10 + DigitValue(s[0]) by {
        assert p'[..|p'| - 1] == p;
      }
      assert SimpleNumberLoop(Some(DecimalValue(p)), s) == SimpleNumberLoop(Some(DecimalValue(p')), t) by {
        assert Digit(s) == Parsed(Some(DigitValue(s[0])), t);
      }
      SimpleNumberLoopValue(p', t);
      assert DigitRun(t) == k - 1;
      assert t[k - 1..] == s[k..];
      MoveHead(p, s, k);
    } else {
      assert p + s[..0] == p;
    }
  }

  lemma MoveHead(p: string, s: string, k: nat)
    requires 0 < k <= |s|
    ensures (p + [s[0]]) + s[1..][..k - 1] == p + s[..k]
  {
  }

  lemma SplitHead(s: string, k: nat)
    requires 0 < k <= |s|
    ensures s[..k] == [s[0]] + s[1..][..k - 1]
  {
  }

  /** The unsigned-integer rule reads the maximal leading run of digits and
      returns its base-10 value; with no leading digit it fails. */
  lemma SimpleNumberValue(s: string)
    ensures var k := DigitRun(s);
            SimpleNumber(s) == if k == 0 then Parsed(None, s)
                               else Parsed(Some(DecimalValue(s[..k])), s[k..])
  {
    var k := DigitRun(s);
    if k > 0 {
      var c := [s[0]];
      assert DecimalValue(c) == DigitValue(s[0]) by {
        assert c[..0] == [];
      }
      SimpleNumberLoopValue(c, s[1..]);
      assert s[1..][k - 1..] == s[k..];
      SplitHead(s, k);
    }
  }

  /** The fractional digits are the maximal run of digits at the start of
      `fs`, scaled by its length. */
  lemma FractionalDigitsValue(n: nat, fs: string)
    ensures DigitRun(fs) == 0 ==> FractionalDigits(n, fs) == Parsed(Some(Decimal(n, 0)), fs)
    ensures var m := DigitRun(fs);
            m > 0 ==> FractionalDigits(n, fs)
                        == Parsed(Some(Decimal(Shift(n, m) + DecimalValue(fs[..m]), m)), fs[m..])
  {
    SimpleNumberValue(fs);
  }

  /** The text left after the whole part of `s`. */
  function AfterWhole(s: string): string {
    s[DigitRun(s)..]
  }

  /** Where `fractional_number` looks for fractional digits: one character past the
      `.` that follows the whole part. */
  function AfterDot(s: string): string {
    DropFirst(DropFirst(AfterWhole(s)))
  }

  predicate DotFollows(s: string) {
    var t := AfterWhole(s);
    |t| > 0 && t[0] == '.'
  }

  /** The decimal rule fails exactly when there is no leading digit. */
  lemma FractionalNumberNoWhole(s: string)
    requires DigitRun(s) == 0
    ensures FractionalNumber(s) == Parsed(None, s)
  {
  }

  /** Without a `.` after the whole part, the decimal rule reads just the
      leading run of digits. */
  lemma FractionalNumberWholeOnly(s: string)
    requires DigitRun(s) > 0 && !DotFollows(s)
    ensures var k := DigitRun(s);
            FractionalNumber(s) == Parsed(Some(Decimal(DecimalValue(s[..k]), 0)), AfterWhole(s))
  {
    var k := DigitRun(s);
    var t := s[k..];
    assert FractionalNumber(s) == FractionalPart(DecimalValue(s[..k]), t) by {
      SimpleNumberValue(s);
    }
    KeywordOneChar(t, ["."]);
  }

  /** After the `.`, one more character is skipped; when no digits follow
      that, the value is the whole part and the rule stops after the skipped
      character. */
  lemma FractionalNumberEmptyFraction(s: string)
    requires DigitRun(s) > 0 && DotFollows(s) && DigitRun(AfterDot(s)) == 0
    ensures var k := DigitRun(s);
            FractionalNumber(s) == Parsed(Some(Decimal(DecimalValue(s[..k]), 0)), AfterDot(s))
  {
    FractionalNumberIsFractionalDigits(s);
    FractionalDigitsValue(DecimalValue(s[..DigitRun(s)]), AfterDot(s));
  }

  /** After the `.`, one more character is skipped; the run of `m` digits
      after that supplies the fraction, scaled by `10^m`. */
  lemma FractionalNumberWithFraction(s: string)
    requires DigitRun(s) > 0 && DotFollows(s) && DigitRun(AfterDot(s)) > 0
    ensures var k := DigitRun(s);
            var fs := AfterDot(s);
            var m := DigitRun(fs);
            FractionalNumber(s)
              == Parsed(Some(Decimal(Shift(DecimalValue(s[..k]), m) + DecimalValue(fs[..m]), m)), fs[m..])
  {
    FractionalNumberIsFractionalDigits(s);
    FractionalDigitsValue(DecimalValue(s[..DigitRun(s)]), AfterDot(s));
  }

  lemma FractionalNumberIsFractionalDigits(s: string)
    requires DigitRun(s) > 0 && DotFollows(s)
    ensures FractionalNumber(s) == FractionalDigits(DecimalValue(s[..DigitRun(s)]), AfterDot(s))
  {
    var k := DigitRun(s);
    var n := DecimalValue(s[..k]);
    SimpleNumberValue(s);
    var t := s[k..];
    assert FractionalNumber(s) == FractionalPart(n, t);
    KeywordOneChar(t, ["."]);
    assert AfterDot(s) == DropFirst(t[1..]);
  }

  /** A decimal number lies between its whole part and the next integer. */
  lemma FractionalNumberBounds(s: string)
    requires DigitRun(s) > 0
    ensures var whole := DecimalValue(s[..DigitRun(s)]);
            var v := FractionalNumber(s).result.value;
            Shift(whole, v.scale) <= v.digits < Shift(whole + 1, v.scale)
  {
    if DotFollows(s) {
      FractionalNumberIsFractionalDigits(s);
      FractionalDigitsBounds(DecimalValue(s[..DigitRun(s)]), AfterDot(s));
    } else {
      FractionalNumberWholeOnly(s);
    }
  }

  lemma FractionalDigitsBounds(n: nat, fs: string)
    ensures var v := FractionalDigits(n, fs).result.value;
            Shift(n, v.scale) <= v.digits < Shift(n + 1, v.scale)
  {
    FractionalDigitsValue(n, fs);
    var m := DigitRun(fs);
    if m > 0 {
      DecimalValueBound(fs[..m]);
      ShiftSucc(n, m);
    }
  }

  /** Shifting the next whole number adds exactly one unit of the last place. */
  lemma {:induction false} ShiftSucc(n: nat, k: nat)
    ensures Shift(n + 1, k) == Shift(n, k) + Pow10(k)
  {
    if k > 0 {
      ShiftSucc(n, k - 1);
    }
  }

  /** The character right after the `.` never reaches the fraction: `1.5`
      reads as 1, and a trailing `.` is consumed along with it. */
  lemma FractionalSkipsCharAfterDot()
    ensures FractionalNumber("1.5") == Parsed(Some(Decimal(1, 0)), "")
    ensures FractionalNumber("1.") == Parsed(Some(Decimal(1, 0)), "")
    ensures FractionalNumber("7.ab") == Parsed(Some(Decimal(7, 0)), "b")
  {
  }

  /** Digits after the skipped character form the fraction, scaled by how
      many characters they occupy: `1.25` reads as 1.5, and so does `1.05`,
      whose `0` is the skipped character. */
  lemma FractionalScalesByDigitCount()
    ensures FractionalNumber("1.25") == Parsed(Some(Decimal(15, 1)), "")
    ensures FractionalNumber("1.05") == Parsed(Some(Decimal(15, 1)), "")
  {
    FractionalNumberWithFraction("1.25");
    FractionalNumberWithFraction("1.05");
  }

  /** Leading zeros of the fraction count towards its scale: `1.x05` reads
      as 1.05. */
  lemma FractionalKeepsLeadingZeros()
    ensures FractionalNumber("1.x05") == Parsed(Some(Decimal(105, 2)), "")
  {
    FractionalNumberWithFraction("1.x05");
    assert DecimalValue("05") == 5;
  }

  /** A leading `-` negates whatever the rest reads as, and is left in place
      when the rest is not a number. */
  lemma NumberNegates(t: string)
    requires |t| > 0 && t[0] != '-'
    ensures Number(t).result.None? ==> Number("-" + t) == Parsed(None, "-" + t)
    ensures Number(t).result.Some? ==>
              Number("-" + t) == Parsed(Some(Number(t).result.value.Negate()), Number(t).rest)
  {
  }

  /** The signed rule is the decimal rule on unsigned input; after a `-` it
      is the negated decimal rule on the tail, and when the tail is not a
      number the whole input, `-` included, is returned. */
  lemma NumberIsFractional(s: string)
    requires |s| > 0
    ensures s[0] != '-' ==> Number(s) == FractionalNumber(s)
    ensures s[0] == '-' && FractionalNumber(s[1..]).result.None? ==> Number(s) == Parsed(None, s)
    ensures s[0] == '-' && FractionalNumber(s[1..]).result.Some? ==>
              Number(s) == Parsed(Some(FractionalNumber(s[1..]).result.value.Negate()), FractionalNumber(s[1..]).rest)
  {
  }

  /** A minus sign is read only together with a number after it. */
  lemma NumberSignExamples()
    ensures Number("-5") == Parsed(Some(Decimal(-5, 0)), "")
    ensures Number("-") == Parsed(None, "-")
    ensures Number("-x") == Parsed(None, "-x")
    ensures Number("") == Parsed(None, "")
  {
  }

  /** On success the decimal rule has consumed a non-empty prefix. */
  lemma FractionalNumberConsumesPrefix(s: string)
    ensures ConsumesPrefix(s, FractionalNumber(s))
  {
    var k := DigitRun(s);
    if k > 0 {
      if DotFollows(s) {
        var fs := AfterDot(s);
        var m := DigitRun(fs);
        AfterDotIsSuffix(s);
        if m > 0 {
          FractionalNumberWithFraction(s);
          SuffixDrop(fs, s, m);
        } else {
          FractionalNumberEmptyFraction(s);
        }
      } else {
        FractionalNumberWholeOnly(s);
        SuffixDrop(s, s, k);
      }
    }
  }

  lemma AfterDotIsSuffix(s: string)
    requires DigitRun(s) > 0 && DotFollows(s)
    ensures |AfterDot(s)| < |s| && IsSuffix(AfterDot(s), s)
  {
  }

  /** On success the signed rule has consumed a non-empty prefix. */
  lemma NumberConsumesPrefix(s: string)
    ensures ConsumesPrefix(s, Number(s))
  {
    if |s| > 0 {
      if s[0] != '-' {
        FractionalNumberConsumesPrefix(s);
      } else {
        FractionalNumberConsumesPrefix(s[1..]);
        var r := FractionalNumber(s[1..]);
        if r.result.Some? {
          assert r.rest == s[|s| - |r.rest|..];
        }
      }
    }
  }
}

=== FILE: primitives.dfy ===
/** The character-level building blocks of the grammar: literal keywords,
    single decimal digits, and the ordered-choice combinator. */
module Primitives {
  import opened Results

  /** Matches the first keyword, in the given order, that is a prefix of `s`
      and strips it (see `KeywordFirstMatch` for the exact outcome). */
  function Keyword(s: string, keywords: seq<string>): (r: Parsed<string>)
    ensures r.result.None? ==> r.rest == s
    ensures r.result.Some? ==> r.result.value in keywords && |r.rest| == |s| - |r.result.value|
  {
    KeywordFrom(s, keywords, 0)
  }

  /** The `for k in keywords` loop of the keyword matcher, from position `i` on. */
  function KeywordFrom(s: string, keywords: seq<string>, i: nat): (r: Parsed<string>)
    requires i <= |keywords|
    ensures r.result.None? ==> r.rest == s
    ensures r.result.Some? ==> r.result.value in keywords && |r.rest| == |s| - |r.result.value|
    decreases |keywords| - i
  {
    if i == |keywords| then Parsed(None, s)
    else if keywords[i] <= s then Parsed(Some(keywords[i]), s[|keywords[i]|..])
    else KeywordFrom(s, keywords, i + 1)
  }

  /** The keyword matcher fails, leaving `s` alone, exactly when no keyword
      is a prefix of `s`; otherwise it returns the earliest keyword in the
      list that is a prefix of `s`, and what follows that prefix. */
  lemma KeywordFirstMatch(s: string, keywords: seq<string>)
    ensures var r := Keyword(s, keywords);
            r.result.None? <==> forall i :: 0 <= i < |keywords| ==> !(keywords[i] <= s)
    ensures var r := Keyword(s, keywords);
            r.result.Some? ==>
              exists i :: 0 <= i < |keywords| && keywords[i] == r.result.value
                          && (forall j :: 0 <= j < i ==> !(keywords[j] <= s))
                          && s == keywords[i] + r.rest
  {
    KeywordFromFirstMatch(s, keywords, 0);
  }

  lemma {:induction false} KeywordFromFirstMatch(s: string, keywords: seq<string>, i: nat)
    requires i <= |keywords|
    ensures var r := KeywordFrom(s, keywords, i);
            r.result.None? <==> forall j :: i <= j < |keywords| ==> !(keywords[j] <= s)
    ensures var r := KeywordFrom(s, keywords, i);
            r.result.Some? ==>
              exists j :: i <= j < |keywords| && keywords[j] == r.result.value
                          && (forall m :: i <= m < j ==> !(keywords[m] <= s))
                          && s == keywords[j] + r.rest
    decreases |keywords| - i
  {
    if i < |keywords| {
      if keywords[i] <= s {
        assert s == keywords[i] + s[|keywords[i]|..];
      } else {
        KeywordFromFirstMatch(s, keywords, i + 1);
      }
    }
  }

  /** With single-character keywords, as everywhere in this grammar, a match
      happens exactly when the first character is one of the keywords, and it
      consumes just that character. */
  lemma KeywordOneChar(s: string, keywords: seq<string>)
    requires forall i :: 0 <= i < |keywords| ==> |keywords[i]| == 1
    ensures Keyword(s, keywords).result.Some? <==> |s| > 0 && [s[0]] in keywords
    ensures Keyword(s, keywords).result.Some? ==> Keyword(s, keywords) == Parsed(Some([s[0]]), s[1..])
  {
    KeywordFirstMatch(s, keywords);
    if |s| > 0 && [s[0]] in keywords {
      var i :| 0 <= i < |keywords| && keywords[i] == [s[0]];
      assert keywords[i] <= s;
    }
    var r := Keyword(s, keywords);
    if r.result.Some? {
      var k := r.result.value;
      assert |k| == 1;
      assert s == k + r.rest;
      assert s[0] == k[0] && k == [s[0]];
      assert r.rest == s[1..];
    }
  }

  /** Ordered choice: tries each parser in turn on the current input and
      returns the first success. As in `first_of`, the input handed to the
      next parser is the remainder returned by the one that failed. */
  function FirstOf<T>(s: string, parsers: seq<string -> Parsed<T>>): Parsed<T>
    decreases |parsers|
  {
    if |parsers| == 0 then Parsed(None, s)
    else
      var r := parsers[0](s);
      if r.result.Some? then r else FirstOf(r.rest, parsers[1..])
  }

  /** A parser that consumes nothing when it fails. */
  ghost predicate Backtracks<T>(p: string -> Parsed<T>) {
    forall t :: p(t).result.None? ==> p(t).rest == t
  }

  /** When every alternative backtracks, `FirstOf` fails exactly when every
      alternative fails on `s` (leaving `s` untouched), and otherwise returns
      the result of the earliest alternative that succeeds on `s`. */
  lemma {:induction false} FirstOfChoosesFirstSuccess<T>(s: string, parsers: seq<string -> Parsed<T>>)
    requires forall i :: 0 <= i < |parsers| ==> Backtracks(parsers[i])
    ensures FirstOf(s, parsers).result.None? <==>
              forall i :: 0 <= i < |parsers| ==> parsers[i](s).result.None?
    ensures FirstOf(s, parsers).result.None? ==> FirstOf(s, parsers).rest == s
    ensures FirstOf(s, parsers).result.Some? ==>
              exists i :: 0 <= i < |parsers| && FirstOf(s, parsers) == parsers[i](s)
                          && forall j :: 0 <= j < i ==> parsers[j](s).result.None?
    decreases |parsers|
  {
    if |parsers| > 0 {
      var r := parsers[0](s);
      if r.result.None? {
        assert r.rest == s;
        var tail := parsers[1..];
        FirstOfChoosesFirstSuccess(s, tail);
        assert forall i :: 1 <= i < |parsers| ==> parsers[i] == tail[i - 1];
        if FirstOf(s, tail).result.Some? {
          var k :| 0 <= k < |tail| && FirstOf(s, tail) == tail[k](s)
                   && forall j :: 0 <= j < k ==> tail[j](s).result.None?;
          assert FirstOf(s, parsers) == parsers[k + 1](s);
        }
      } else {
        assert FirstOf(s, parsers) == parsers[0](s);
      }
    }
  }

  predicate IsDigit(c: char) {
    '0' <= c <= '9'
  }

  /** The numeric value of a decimal digit character. */
  function DigitValue(c: char): (d: nat)
    requires IsDigit(c)
    ensures d < 10
  {
    c as int - '0' as int
  }

  /** Parses one decimal digit, by the distance of the first character's code
      from the code of `'0'`. */
  function Digit(s: string): (r: Parsed<nat>)
    ensures r.result.Some? <==> |s| > 0 && IsDigit(s[0])
    ensures r.result.None? ==> r.rest == s
    ensures r.result.Some? ==> r.result.value == DigitValue(s[0]) && r.rest == s[1..]
  {
    if |s| == 0 then Parsed(None, s)
    else
      var d := s[0] as int - '0' as int;
      if d < 0 || d > 9 then Parsed(None, s)
      else Parsed(Some(d as nat), s[1..])
  }
}

=== FILE: printing.dfy ===
/** A printer for parse trees whose numbers are whole, and the round trip:
    the expression rule reads a printed tree back as the same tree. */
module Printing {
  import opened Results
  import opened Primitives
  import opened Numbers
  import opened Expressions

  function DigitChar(d: nat): (c: char)
    requires d < 10
    ensures IsDigit(c) && DigitValue(c) == d
  {
    ('0' as int + d) as char
  }

  /** The decimal digits of `n`, most significant first, without leading
      zeros. */
  function NatDigits(n: nat): (ds: string)
    ensures |ds| > 0 && AllDigits(ds)
    decreases n
  {
    if n < 10 then [DigitChar(n)] else NatDigits(n / 10) + [DigitChar(n % 10)]
  }

  /** A whole number, with a leading `-` when it is negative. */
  function ShowInt(i: int): (r: string)
    ensures |r| > 0 && (r[0] == '-' || IsDigit(r[0]))
  {
    if i < 0 then "-" + NatDigits(-i) else NatDigits(i)
  }

  /** Prints a tree in the grammar's own notation: operators between their
      operands, brackets where the tree has them, and nothing else. */
  function Show(e: Node): string {
    match e
    case Num(v) => ShowInt(v.digits)
    case Brackets(inner) => "(" + Show(inner) + ")"
    case Bin(op, l, r) => Show(l) + op + Show(r)
  }

  lemma ShowBinAppend(e: Node, rest: string)
    requires e.Bin?
    ensures Show(e) + rest == Show(e.left) + (e.op + (Show(e.right) + rest))
  {
  }

  /** Every number in the tree is whole (has no fractional digits). */
  predicate WholeLeaves(e: Node) {
    match e
    case Num(v) => v.scale == 0
    case Brackets(inner) => WholeLeaves(inner)
    case Bin(_, l, r) => WholeLeaves(l) && WholeLeaves(r)
  }

  /** What may follow a number without being read into it. */
  predicate EndsNumber(rest: string) {
    rest == [] || (!IsDigit(rest[0]) && rest[0] != '.')
  }

  /** What may follow a product without extending it. */
  predicate EndsTerm(rest: string) {
    EndsNumber(rest) && (rest == [] || rest[0] !in "*/")
  }

  /** What may follow a sum without extending it. */
  predicate EndsSum(rest: string) {
    EndsTerm(rest) && (rest == [] || rest[0] !in "+-")
  }

  /** Reading the printed digits of `n` gives back `n`. */
  lemma {:induction false} NatDigitsValue(n: nat)
    ensures DecimalValue(NatDigits(n)) == n
    decreases n
  {
    var ds := NatDigits(n);
    if n >= 10 {
      NatDigitsValue(n / 10);
      assert ds[..|ds| - 1] == NatDigits(n / 10);
    } else {
      assert ds[..0] == [];
    }
  }

  /** The run of digits at the start of `ds + rest` is exactly `ds` when
      `rest` does not start with a digit. */
  lemma {:induction false} DigitRunOfDigits(ds: string, rest: string)
    requires AllDigits(ds) && (rest == [] || !IsDigit(rest[0]))
    ensures DigitRun(ds + rest) == |ds|
    decreases |ds|
  {
    if |ds| > 0 {
      assert (ds + rest)[1..] == ds[1..] + rest;
      DigitRunOfDigits(ds[1..], rest);
    } else {
      assert ds + rest == rest;
    }
  }

  /** The decimal rule reads back printed digits. */
  lemma FractionalNumberShowNat(n: nat, rest: string)
    requires EndsNumber(rest)
    ensures FractionalNumber(NatDigits(n) + rest) == Parsed(Some(Decimal(n, 0)), rest)
  {
    var ds := NatDigits(n);
    var s := ds + rest;
    DigitRunOfDigits(ds, rest);
    NatDigitsValue(n);
    assert s[..|ds|] == ds && s[|ds|..] == rest;
    FractionalNumberWholeOnly(s);
  }

  /** The signed-number rule reads back a printed whole number. */
  lemma NumberShowInt(i: int, rest: string)
    requires EndsNumber(rest)
    ensures Number(ShowInt(i) + rest) == Parsed(Some(Decimal(i, 0)), rest)
  {
    if i < 0 {
      var s := NatDigits(-i) + rest;
      FractionalNumberShowNat(-i, rest);
      assert (ShowInt(i) + rest)[1..] == s;
    } else {
      FractionalNumberShowNat(i, rest);
    }
  }

  /** An operand reads back a printed factor, stopping where the print
      ends. */
  lemma FactorRoundTrip(e: Node, rest: string)
    requires IsFactor(e) && WholeLeaves(e) && EndsNumber(rest)
    ensures MulOperand(Show(e) + rest) == Parsed(Some(e), rest)
    decreases e, 0
  {
    var s := Show(e) + rest;
    match e
    case Num(v) =>
      NumberShowInt(v.digits, rest);
      BracketExprAllOrNothing(s);
    case Brackets(inner) =>
      assert s[1..] == Show(inner) + (")" + rest);
      SumRoundTrip(inner, ")" + rest);
      BracketExprAllOrNothing(s);
  }

  /** The product rule reads a printed term and then continues its loop
      with that term on the left. */
  lemma TermPrefix(e: Node, rest: string)
    requires IsTerm(e) && WholeLeaves(e) && EndsNumber(rest)
    ensures MulExpr(Show(e) + rest) == MulLoop(e, rest)
    decreases e, 1
  {
    if e.Bin? {
      var u := Show(e.right) + rest;
      ShowBinAppend(e, rest);
      TermPrefix(e.left, e.op + u);
      FactorRoundTrip(e.right, rest);
      MulLoopStep(e.left, e.op, u);
    } else {
      FactorRoundTrip(e, rest);
    }
  }

  /** The product rule reads back a printed term. */
  lemma TermRoundTrip(e: Node, rest: string)
    requires IsTerm(e) && WholeLeaves(e) && EndsTerm(rest)
    ensures MulExpr(Show(e) + rest) == Parsed(Some(e), rest)
    decreases e, 2
  {
    TermPrefix(e, rest);
    KeywordOneChar(rest, MulOps);
  }

  /** The sum rule reads a printed sum and then continues its loop with
      that sum on the left. */
  lemma SumPrefix(e: Node, rest: string)
    requires IsSum(e) && WholeLeaves(e) && EndsTerm(rest)
    ensures AddExpr(Show(e) + rest) == AddLoop(e, rest)
    decreases e, 3
  {
    if e.Bin? && e.op in AddOps {
      var u := Show(e.right) + rest;
      ShowBinAppend(e, rest);
      SumPrefix(e.left, e.op + u);
      TermRoundTrip(e.right, rest);
      AddLoopStep(e.left, e.op, u);
    } else {
      TermRoundTrip(e, rest);
    }
  }

  /** The expression rule reads back a printed sum, leaving whatever
      follows it. */
  lemma SumRoundTrip(e: Node, rest: string)
    requires IsSum(e) && WholeLeaves(e) && EndsSum(rest)
    ensures Expr(Show(e) + rest) == Parsed(Some(e), rest)
    decreases e, 4
  {
    SumPrefix(e, rest);
    KeywordOneChar(rest, AddOps);
  }

  /** The whole printed text of a well-formed tree parses back to it. */
  lemma ShowParses(e: Node)
    requires IsSum(e) && WholeLeaves(e)
    ensures Expr(Show(e)) == Parsed(Some(e), "")
  {
    SumRoundTrip(e, "");
    assert Show(e) + "" == Show(e);
  }
}

=== FILE: results.dfy ===
/** The uniform outcome of every grammar rule: an optional parsed value and
    the part of the input the rule did not consume. */
module Results {

  /** The "no match" sentinel (`None`) or a parsed value. */
  datatype Option<+T> = None | Some(value: T)

  /** What a rule returns: `(None, input)` when it could not parse its input,
      `(Some(v), tail)` when it parsed a prefix of the input into `v`. */
  datatype Parsed<+T> = Parsed(result: Option<T>, rest: string)

  /** `t` is a (possibly equal) suffix of `s`. */
  predicate IsSuffix(t: string, s: string) {
    |t| <= |s| && t == s[|s| - |t|..]
  }

  /** `t` is a suffix of `s` that is strictly shorter: something was consumed. */
  predicate IsProperSuffix(t: string, s: string) {
    |t| < |s| && IsSuffix(t, s)
  }

  /** The uniform contract of a rule on one input: failure consumes nothing,
      success leaves a strictly shorter remainder. */
  predicate Honest<T>(s: string, r: Parsed<T>) {
    && (r.result.None? ==> r.rest == s)
    && (r.result.Some? ==> |r.rest| < |s|)
  }

  /** Success consumes a non-empty prefix: the remainder is a proper suffix. */
  predicate ConsumesPrefix<T>(s: string, r: Parsed<T>) {
    r.result.Some? ==> IsProperSuffix(r.rest, s)
  }

  /** Dropping a prefix of `s` leaves a suffix of `s`. */
  lemma DropIsSuffix(s: string, m: nat)
    requires m <= |s|
    ensures IsSuffix(s[m..], s)
  {
  }

  /** Dropping a prefix of a suffix of `s` leaves a suffix of `s`. */
  lemma SuffixDrop(t: string, s: string, m: nat)
    requires IsSuffix(t, s) && m <= |t|
    ensures IsSuffix(t[m..], s)
  {
  }

  lemma SuffixTransitive(u: string, t: string, s: string)
    requires IsSuffix(u, t) && IsSuffix(t, s)
    ensures IsSuffix(u, s)
  {
  }
}
